=== FILE: README.md ===
# roda-enhanced_logger, modelled in Dafny

This project models the per-request bookkeeping of the `enhanced_logger` Roda
plugin:

- `Current` — the per-thread accumulator of database time and query count
  (`Roda::EnhancedLogger::Current`). Thread-local storage is a map from thread
  id to a slot of two optional integers. Time is counted in integer ticks.
  Ruby's `Thread.current[:key]` is in fact fiber-local, so a `ThreadId` names
  one fiber: one unit of execution with its own pair of variables.
- `RequestInstance` — one app's logging state for one request
  (`Roda::EnhancedLogger::Instance`). It decides primary or nested status
  through a marker in the Rack env. It keeps an append-only match list and an
  append-only entry list. `Add` turns status, request, matches, the thread's
  counters, the trace flag and the path filter into entries. `Drain` returns
  what the logger receives. `Reset` clears the thread's counters.
- `EnhancedLogger` — the plugin itself. It holds `DEFAULTS` and the option
  merge, the trace decision, the match hook's frame selection, and the before
  and after hooks. `Serve` plays one app's hooks around a script of route-block
  events on one thread. Those events are routing matches, database activity,
  and calls of nested apps. Nested apps share the env and the thread with the
  outer app. A nested call may be followed by further events, which is more
  than Roda's `r.run` allows: `r.run` halts the route block, and the inner
  response becomes the outer one. Scripts whose last event is the nested call,
  with the outer status equal to the inner one, are exactly the `r.run` case.
- `Scenarios` — whole requests: the plain request, the filtered path, query
  counting, the nested app, and the missed route with a nil match.

The model follows the code where a reader might expect something else:

- When no caller frame lies under the root, the match hook appends nil. It
  does not skip the event.
- With tracing on, a nil match makes `add` raise when it calls `path` on nil.
  The trace entries of earlier matches have already been appended by then. The
  exception leaves the after hook, so `drain` and `reset` do not run, and the
  counters stay on the thread.
- Every after hook calls `reset`, nested apps included. A nested app therefore
  clears the counters before the outer app's `add` reads them.
- The Sequel extension adds to the accrued time only. No library code
  increments the query count; only callers of the `Current` API do.

## Model

| member | source | states |
|---|---|---|
| `Current.IncrementAccruedDatabaseTime` | lib/roda/enhanced_logger/current.rb:17-20 | from unset the time becomes exactly the increment, otherwise old plus increment; the returned total is what is stored; the count and other threads are unchanged |
| `Current.SetAccruedDatabaseTime` | lib/roda/enhanced_logger/current.rb:33-35 | stores exactly the given value, nil included, and returns it; the count and other threads are unchanged |
| `Current.IncrementDatabaseQueryCount` | lib/roda/enhanced_logger/current.rb:37-40 | default increment of 1; from unset the count becomes exactly the increment, otherwise old plus increment; the time and other threads are unchanged |
| `Current.SetDatabaseQueryCount` | lib/roda/enhanced_logger/current.rb:46-48 | stores exactly the given value, nil included, and returns it; the time and other threads are unchanged |
| `Current.Reset` | lib/roda/enhanced_logger/current.rb:51-55 | both counters read nil afterwards, the result is true, other threads are unchanged |
| `Current.ResetIdempotent` | lib/roda/enhanced_logger/current.rb:51-55 | resetting twice leaves the same storage as resetting once |
| `Current.OtherThreadsIsolated` | lib/roda/enhanced_logger/current.rb:17-48 | any sequence of calls by one thread leaves every other thread's slot as it was |
| `Current.TimeUnsetUntilWritten` | lib/roda/enhanced_logger/current.rb:24-26 | an unset time reads nil until an increment or a non-nil set |
| `Current.CountUnsetUntilWritten` | lib/roda/enhanced_logger/current.rb:42-44 | an unset count reads nil until an increment or a non-nil set |
| `Current.DefaultIncrementsAdd` | lib/roda/enhanced_logger/current.rb:37-40 | from a count k, n increments without an argument give k + n |
| `Current.CountOfDefaultIncrements` | lib/roda/enhanced_logger/current.rb:37-40 | from unset, n increments without an argument give exactly n, and nil when n is 0 |
| `Current.TimeIncrementsAdd` | lib/roda/enhanced_logger/current.rb:17-20 | from a time k, a series of increments gives k plus their sum |
| `Current.TimeOfIncrements` | lib/roda/enhanced_logger/current.rb:17-20 | from unset, a series of increments accrues exactly their sum, and nil when there are none |
| `RequestInstance.New` | lib/roda/enhanced_logger/instance.rb:15-28 | primary iff the env marker is nil; a primary instance writes its id under the marker and changes no other key; a nested one leaves the env as it was; matches and entries start empty; a nil filter rejects every path |
| `RequestInstance.AddMatch` | lib/roda/enhanced_logger/instance.rb:30-32 | appends exactly one match, nil included, keeping earlier matches and all other state |
| `RequestInstance.AddLogEntry` | lib/roda/enhanced_logger/instance.rb:34-36 | appends exactly one entry, keeping earlier entries and all other state |
| `RequestInstance.LevelFor` | lib/roda/enhanced_logger/instance.rb:45-53 | warn iff the status is in 400..499, error iff it is in 500..599, info otherwise (399 and 600 included) |
| `RequestInstance.HandlerValue` | lib/roda/enhanced_logger/instance.rb:39-43 | nil iff there is no match or the last match is nil; otherwise the last match's relative path and line |
| `RequestInstance.HandlerOnlyFromLastMatch` | lib/roda/enhanced_logger/instance.rb:39-43 | two match lists with the same last element give the same handler |
| `RequestInstance.SummaryData` | lib/roda/enhanced_logger/instance.rb:55-71 | `db` is present iff the thread's time is set and `db_queries` iff its count is set, with exactly those values and never 0 in their place; status, verb, path, remaining path and params are copied unchanged |
| `RequestInstance.TraceLines` | lib/roda/enhanced_logger/instance.rb:73-80 | one trace entry per match in match order, stopping at the first nil match, and it reports whether all matches were frames |
| `RequestInstance.AddTrace` | lib/roda/enhanced_logger/instance.rb:73-80 | appends a trace entry per match in order at the given level; it completes iff no match is nil; other state is unchanged |
| `RequestInstance.Add` | lib/roda/enhanced_logger/instance.rb:38-85 | only entries change and earlier ones stay; it raises iff tracing meets a nil match; every new entry has the status's level; a completed add appends one entry per match when tracing plus one summary unless the filter accepts the path |
| `RequestInstance.AddTracesMatchesInOrder` | lib/roda/enhanced_logger/instance.rb:73-80 | with tracing, the appended entries begin with one trace entry per match, in match order |
| `RequestInstance.AddSummaryUnlessFiltered` | lib/roda/enhanced_logger/instance.rb:82-84 | the summary `"<verb> <path>"` is the last appended entry iff add completes and the filter rejects the path; all other appended entries are trace entries, so the filter suppresses only the summary |
| `RequestInstance.AddFailsAtFirstNilMatch` | lib/roda/enhanced_logger/instance.rb:73-78 | with tracing and a nil match, add raises after the trace entries of the matches before the first nil, with no summary |
| `RequestInstance.AddOmitsUnsetCounters` | lib/roda/enhanced_logger/instance.rb:65-71 | with the thread's counters unset, no appended entry carries `db` or `db_queries` |
| `RequestInstance.AddReadsOwnSlot` | lib/roda/enhanced_logger/instance.rb:65-71 | `add` reads nothing of the thread-local storage but the calling thread's two variables |
| `RequestInstance.Drain` | lib/roda/enhanced_logger/instance.rb:91-97 | nothing from a nested instance; from a primary one every entry once, in order |
| `RequestInstance.Reset` | lib/roda/enhanced_logger/instance.rb:99-101 | the calling thread's counters are unset afterwards, other threads unchanged |
| `EnhancedLogger.Configure` | lib/roda/plugins/enhanced_logger.rb:31-46 | every user key overrides its default; every other default key keeps its default value |
| `EnhancedLogger.TraceRequested` | lib/roda/plugins/enhanced_logger.rb:78 | a truthy `trace_all` always traces; otherwise tracing happens iff `trace_missed` is truthy and the status is 404 |
| `EnhancedLogger.DefaultTraceOnlyOnMissed` | lib/roda/plugins/enhanced_logger.rb:34-35 | when the user sets neither trace option, a request is traced iff its status is 404 |
| `EnhancedLogger.FilterOf` | lib/roda/plugins/enhanced_logger.rb:69-71 | the instance gets the user's proc when one is configured, and nil otherwise |
| `EnhancedLogger.FirstUnderRoot` | lib/roda/plugins/enhanced_logger.rb:62-64 | the index of the first frame whose path starts with the root; no earlier frame does |
| `EnhancedLogger.SelectFrame` | lib/roda/plugins/enhanced_logger.rb:62-64 | nil iff no frame's path starts with the root; otherwise the first frame that does |
| `EnhancedLogger.MatchHook` | lib/roda/plugins/enhanced_logger.rb:61-67 | every match event appends exactly one element: the appended element is the frame `SelectFrame` picks from the hook's caller frames, so nil iff no frame lies under the root, otherwise the first frame under the root; matches and entries recorded before are kept |
| `EnhancedLogger.Emit` | lib/roda/enhanced_logger/instance.rb:94-96 | one logger receives the entries after what it already had; no other logger changes |
| `EnhancedLogger.BeforeHook` | lib/roda/plugins/enhanced_logger.rb:69-71 | the new instance is primary iff the env was unmarked; an unmarked env gains only the marker, holding the app instance's `object_id`, and every other key keeps its value; a marked env is unchanged; the instance filters exactly the paths the configured proc accepts |
| `EnhancedLogger.AfterHook` | lib/roda/plugins/enhanced_logger.rb:73-83 | add reads the counters before reset; a primary instance's logger receives the added entries and a nested one's nothing; the counters are unset afterwards; when add raises nothing is drained or reset |
| `EnhancedLogger.Serve` | lib/roda/plugins/enhanced_logger.rb:61-83 | after every completed request the thread's counters are unset, for nested apps too; other threads are untouched; on a marked env nothing is logged; on an unmarked env only the marker is added to the env, and only the app's own logger receives entries, exactly the entries of the completed instance |
| `EnhancedLogger.ServeReadsSlotAfter` | lib/roda/plugins/enhanced_logger.rb:73-83 | a completed request's instance is exactly what `add` produces for the matches the route block recorded (`Selected`, in event order) when it reads the slot `SlotAfter` predicts from the block's events: its own database events after the last nested app, nothing from before it |
| `EnhancedLogger.SlotAfterForgetsBeforeNested` | lib/roda/plugins/enhanced_logger.rb:82 | a nested app's after hook resets the counters, so the slot at the end of the block depends only on the events after that nested app |
| `EnhancedLogger.RunEventsSlot` | lib/roda/enhanced_logger/current.rb:17-48 | when the route block completes, the thread's slot is what `SlotAfter` predicts: each database event adds as `||= 0` then `+=` does, each completed nested app leaves it unset, matches leave it alone |
| `EnhancedLogger.RunEvents` | lib/roda/plugins/enhanced_logger.rb:61-67 | the route block keeps the env and every logger's output, appends to the matches exactly `Selected` of its events (the frame chosen for each match event, in event order), and leaves the counters unset when it ends by running a nested app |
| `EnhancedLogger.Selected` | lib/roda/plugins/enhanced_logger.rb:61-67 | the reference list of recorded matches: one `SelectFrame` result per match event, in event order, as many as there are match events |
| `Scenarios.FlatRouteBlock` | lib/roda/enhanced_logger/current.rb:17-40 | a route block without nested apps completes and leaves the counters as its database calls make them |
| `Scenarios.ForeignFrameRecordsNil` | lib/roda/plugins/enhanced_logger.rb:61-67 | a match event whose frames all lie outside the root leaves a nil in the match list |
| `Scenarios.FlatRequestLogsOneSummary` | lib/roda/plugins/enhanced_logger.rb:73-83 | an untraced, unfiltered outermost request without nested apps logs exactly one summary at the status's level, carrying `db` and `db_queries` as accrued, and ends with the counters unset |
| `Scenarios.FilteredRequestLogsNothing` | lib/roda/enhanced_logger/instance.rb:82 | an untraced request whose path the filter accepts sends nothing to any logger, whether it completes or raises, with nested apps or not, outermost or nested; an outermost one without nested apps completes |
| `Scenarios.DefaultOptionsFilteredPathSilent` | spec/enhanced_logger_spec.rb:9-28 | with default options and a filter that accepts the path, a status other than 404 produces no output, with nested apps or not, outermost or nested; an outermost one without nested apps completes |
| `Scenarios.QueryCountReachesSummary` | lib/roda/enhanced_logger/instance.rb:69-71 | n > 0 query-count increments from unset counters give `db_queries` = n and no `db` in the summary |
| `Scenarios.InnerRunHidesOuterDatabaseFields` | lib/roda/plugins/enhanced_logger.rb:82 | when the route block ends by running a nested app, no entry of the outer request carries `db` or `db_queries` |
| `Scenarios.CompletedRequestLogsSummaryLast` | lib/roda/enhanced_logger/instance.rb:73-84 | a completed, unfiltered outermost request, traced or not and with nested apps or not, appends to its logger's output and ends it with the summary built from the predicted slot |
| `Scenarios.CompletedRequestEndsWithSummary` | lib/roda/enhanced_logger/instance.rb:65-71 | that last summary has `db` and `db_queries` exactly when the predicted slot has them set, with their values |
| `Scenarios.NoDatabaseFieldsAfterNestedCall` | lib/roda/plugins/enhanced_logger.rb:82 | when no database event follows a nested app anywhere in the route block, no entry of the completed outer request carries `db` or `db_queries` |
| `Scenarios.NestedAppOnlyOuterLogs` | spec/enhanced_logger_spec.rb:150-175 | the nested app's logger receives nothing; the outer logger receives exactly one summary, without database fields; the counters end unset |
| `Scenarios.MissedRouteWithForeignFrameRaises` | lib/roda/enhanced_logger/instance.rb:73-78 | with default options, a 404 with a nil match raises, logs nothing, and leaves the accrued counters on the thread |

## Left out

- TTY::Logger construction, handlers, output, `log_time` metadata and the `<FILTERED>` masking of `filtered_params` (lib/roda/plugins/enhanced_logger.rb:48-54): they belong to the logger library. The params reach the entry unchanged, and `Drain` returns what the logger would receive.
- Trace message text: `File.readlines` with `strip` and `sub(" do", "")` is file I/O. It is the `sourceLine` parameter of `Files`, and a missing line is not modelled.
- `Pathname#relative_path_from`: the `relativePath` parameter of `Files`. The `"%s:%d"` and `"  %s (%s:%s)"` formatting is kept as structured values (`Location`, `TraceLine`), not strings.
- The monotonic clock and the float `round(4)` and `round(6)`: clock readings are integer ticks given to each dispatch, and `duration` is their difference. Database time is an integer count of ticks with no rounding.
- `caller_locations` and `app.opts[:root] || Dir.pwd`: the frames of each match event and the app's root are inputs.
- The `db` option and `DB` lookup with `extension :enhanced_logger` (lib/roda/plugins/enhanced_logger.rb:58-59), and the Sequel extension with its version check: their only effect on this core is a time increment, which the `AccrueTime` event stands for.
- `load_dependencies` and `register_plugin`: plugin registration with Roda.
- Real thread concurrency: each thread's slot is separate, and `OtherThreadsIsolated` states the isolation.
- The logger passed through a `logger:` option and the `InvalidLogger` error: the plugin code modelled here has no such option.
- EnhancedLogger.FilterOf: a `:filter` value that is truthy but not a proc is treated as absent. Ruby would keep it and raise at `filter.call`.
- EnhancedLogger.Serve: an exception ends the request there. Outer after hooks and Roda's own error handling are not run, because what Roda's hooks plugin does with an exception is not part of this model.
- EnhancedLogger.TraceRequested: returns the truth of the Ruby expression rather than its value. `add` only tests that value with `if`.
- Non-integer statuses: the level case split is modelled on integer statuses only.

=== FILE: current.dfy ===
/**
 * The per-thread accumulator of `Roda::EnhancedLogger::Current`.
 *
 * Ruby keeps the two counters in `Thread.current[:accrued_database_time]` and
 * `Thread.current[:database_query_count]`. Here every thread's pair of
 * variables is one `Slot`, and the thread-local storage of the whole process
 * is a map from thread id to slot. Every operation receives the id of the
 * thread that calls it and touches only that thread's slot. Ruby's
 * `Thread.current[]` is fiber-local, so a `ThreadId` stands for one fiber.
 */
module Current {
  import opened Wrappers

  type ThreadId = nat

  /** One thread's two variables; `None` is an unset (nil) variable. Time is in integer ticks. */
  datatype Slot = Slot(time: Option<int>, count: Option<int>)

  /** The slot of a thread that has set nothing: both variables read nil. */
  const Empty := Slot(None, None)

  /** `Thread.current` storage of every thread. */
  type Store = map<ThreadId, Slot>

  /** The slot thread `t` sees; a thread with no entry sees both variables unset. */
  function SlotOf(s: Store, t: ThreadId): Slot {
    if t in s then s[t] else Empty
  }

  /** Every thread other than `t` sees the same slot in `s` and in `s'`. */
  ghost predicate OthersUnchanged(s: Store, s': Store, t: ThreadId) {
    forall u :: u != t ==> SlotOf(s', u) == SlotOf(s, u)
  }

  /** `accrued_database_time`: the stored value, nil when unset. */
  function AccruedDatabaseTime(s: Store, t: ThreadId): Option<int> {
    SlotOf(s, t).time
  }

  /** `database_query_count`: the stored value, nil when unset. */
  function DatabaseQueryCount(s: Store, t: ThreadId): Option<int> {
    SlotOf(s, t).count
  }

  /**
   * `increment_accrued_database_time(value)`: an unset variable first becomes 0,
   * then `value` is added. Returns the new store and the new total.
   */
  function IncrementAccruedDatabaseTime(s: Store, t: ThreadId, value: int): (r: (Store, int))
    ensures AccruedDatabaseTime(s, t).None? ==> r.1 == value
    ensures AccruedDatabaseTime(s, t).Some? ==> r.1 == AccruedDatabaseTime(s, t).value + value
    ensures AccruedDatabaseTime(r.0, t) == Some(r.1)
    ensures DatabaseQueryCount(r.0, t) == DatabaseQueryCount(s, t)
    ensures OthersUnchanged(s, r.0, t)
  {
    var total := AccruedDatabaseTime(s, t).GetOr(0) + value;
    (s[t := SlotOf(s, t).(time := Some(total))], total)
  }

  /** `accrued_database_time=(value)`: stores `value` (nil included) and returns it. */
  function SetAccruedDatabaseTime(s: Store, t: ThreadId, value: Option<int>): (r: (Store, Option<int>))
    ensures r.1 == value
    ensures AccruedDatabaseTime(r.0, t) == value
    ensures DatabaseQueryCount(r.0, t) == DatabaseQueryCount(s, t)
    ensures OthersUnchanged(s, r.0, t)
  {
    (s[t := SlotOf(s, t).(time := value)], value)
  }

  /**
   * `increment_database_query_count(value = 1)`: an unset variable first becomes 0,
   * then `value` is added. Returns the new store and the new count.
   */
  function IncrementDatabaseQueryCount(s: Store, t: ThreadId, value: int := 1): (r: (Store, int))
    ensures DatabaseQueryCount(s, t).None? ==> r.1 == value
    ensures DatabaseQueryCount(s, t).Some? ==> r.1 == DatabaseQueryCount(s, t).value + value
    ensures DatabaseQueryCount(r.0, t) == Some(r.1)
    ensures AccruedDatabaseTime(r.0, t) == AccruedDatabaseTime(s, t)
    ensures OthersUnchanged(s, r.0, t)
  {
    var total := DatabaseQueryCount(s, t).GetOr(0) + value;
    (s[t := SlotOf(s, t).(count := Some(total))], total)
  }

  /** `database_query_count=(value)`: stores `value` (nil included) and returns it. */
  function SetDatabaseQueryCount(s: Store, t: ThreadId, value: Option<int>): (r: (Store, Option<int>))
    ensures r.1 == value
    ensures DatabaseQueryCount(r.0, t) == value
    ensures AccruedDatabaseTime(r.0, t) == AccruedDatabaseTime(s, t)
    ensures OthersUnchanged(s, r.0, t)
  {
    (s[t := SlotOf(s, t).(count := value)], value)
  }

  /** `reset`: sets both variables of the calling thread to nil and returns true. */
  function Reset(s: Store, t: ThreadId): (r: (Store, bool))
    ensures r.1
    ensures AccruedDatabaseTime(r.0, t).None? && DatabaseQueryCount(r.0, t).None?
    ensures OthersUnchanged(s, r.0, t)
  {
    var (s1, _) := SetAccruedDatabaseTime(s, t, None);
    var (s2, _) := SetDatabaseQueryCount(s1, t, None);
    (s2, true)
  }

  /** Resetting twice leaves the same store as resetting once. */
  lemma ResetIdempotent(s: Store, t: ThreadId)
    ensures Reset(Reset(s, t).0, t).0 == Reset(s, t).0
  {
  }

  /** A call a thread can make on `Current`; readers change nothing. */
  datatype Call =
    | IncrementTime(amount: int)
    | IncrementCount(amount: int)
    | SetTime(to: Option<int>)
    | SetCount(to: Option<int>)
    | ReadTime
    | ReadCount
    | ResetAll

  /** The store after thread `t` makes call `c`. */
  function Apply(s: Store, t: ThreadId, c: Call): Store {
    match c
    case IncrementTime(v) => IncrementAccruedDatabaseTime(s, t, v).0
    case IncrementCount(v) => IncrementDatabaseQueryCount(s, t, v).0
    case SetTime(v) => SetAccruedDatabaseTime(s, t, v).0
    case SetCount(v) => SetDatabaseQueryCount(s, t, v).0
    case ReadTime => s
    case ReadCount => s
    case ResetAll => Reset(s, t).0
  }

  /** The store after thread `t` makes `calls` in order. */
  function ApplyAll(s: Store, t: ThreadId, calls: seq<Call>): Store
    decreases |calls|
  {
    if |calls| == 0 then s else ApplyAll(Apply(s, t, calls[0]), t, calls[1..])
  }

  /** Calls made by thread `t` never change what another thread sees. */
  lemma {:induction false} OtherThreadsIsolated(s: Store, t: ThreadId, calls: seq<Call>, u: ThreadId)
    requires u != t
    ensures SlotOf(ApplyAll(s, t, calls), u) == SlotOf(s, u)
    decreases |calls|
  {
    if |calls| > 0 {
      OtherThreadsIsolated(Apply(s, t, calls[0]), t, calls[1..], u);
    }
  }

  /** Whether `c` can make the time variable non-nil. */
  predicate WritesTime(c: Call) {
    c.IncrementTime? || (c.SetTime? && c.to.Some?)
  }

  /** Whether `c` can make the count variable non-nil. */
  predicate WritesCount(c: Call) {
    c.IncrementCount? || (c.SetCount? && c.to.Some?)
  }

  /** An unset time variable stays unset until an increment or a non-nil set. */
  lemma {:induction false} TimeUnsetUntilWritten(s: Store, t: ThreadId, calls: seq<Call>)
    requires AccruedDatabaseTime(s, t).None?
    requires forall i :: 0 <= i < |calls| ==> !WritesTime(calls[i])
    ensures AccruedDatabaseTime(ApplyAll(s, t, calls), t).None?
    decreases |calls|
  {
    if |calls| > 0 {
      assert !WritesTime(calls[0]);
      TimeUnsetUntilWritten(Apply(s, t, calls[0]), t, calls[1..]);
    }
  }

  /** An unset count variable stays unset until an increment or a non-nil set. */
  lemma {:induction false} CountUnsetUntilWritten(s: Store, t: ThreadId, calls: seq<Call>)
    requires DatabaseQueryCount(s, t).None?
    requires forall i :: 0 <= i < |calls| ==> !WritesCount(calls[i])
    ensures DatabaseQueryCount(ApplyAll(s, t, calls), t).None?
    decreases |calls|
  {
    if |calls| > 0 {
      assert !WritesCount(calls[0]);
      CountUnsetUntilWritten(Apply(s, t, calls[0]), t, calls[1..]);
    }
  }

  /** `n` calls of `increment_database_query_count` without an argument. */
  function DefaultCountIncrements(n: nat): (r: seq<Call>)
    ensures |r| == n
    ensures forall i :: 0 <= i < n ==> r[i] == IncrementCount(1)
  {
    seq(n, _ => IncrementCount(1))
  }

  /** From a count of `k`, `n` default increments give `k + n`. */
  lemma {:induction false} DefaultIncrementsAdd(s: Store, t: ThreadId, k: int, n: nat)
    requires DatabaseQueryCount(s, t) == Some(k)
    ensures DatabaseQueryCount(ApplyAll(s, t, DefaultCountIncrements(n)), t) == Some(k + n)
    decreases n
  {
    if n > 0 {
      var s1 := Apply(s, t, IncrementCount(1));
      assert DefaultCountIncrements(n)[1..] == DefaultCountIncrements(n - 1);
      DefaultIncrementsAdd(s1, t, k + 1, n - 1);
    }
  }

  /** From an unset count, `n` default increments give exactly `n` (still nil when `n` is 0). */
  lemma CountOfDefaultIncrements(s: Store, t: ThreadId, n: nat)
    requires DatabaseQueryCount(s, t).None?
    ensures DatabaseQueryCount(ApplyAll(s, t, DefaultCountIncrements(n)), t)
         == (if n == 0 then None else Some(n))
  {
    if n > 0 {
      var s1 := Apply(s, t, IncrementCount(1));
      assert DefaultCountIncrements(n)[1..] == DefaultCountIncrements(n - 1);
      DefaultIncrementsAdd(s1, t, 1, n - 1);
    }
  }

  function Sum(vs: seq<int>): int
    decreases |vs|
  {
    if |vs| == 0 then 0 else vs[0] + Sum(vs[1..])
  }

  /** One time increment per value. */
  function TimeIncrements(vs: seq<int>): (r: seq<Call>)
    ensures |r| == |vs|
    ensures forall i :: 0 <= i < |vs| ==> r[i] == IncrementTime(vs[i])
  {
    seq(|vs|, i requires 0 <= i < |vs| => IncrementTime(vs[i]))
  }

  /** From an accrued time of `k`, increments by `vs` give `k` plus their sum. */
  lemma {:induction false} TimeIncrementsAdd(s: Store, t: ThreadId, k: int, vs: seq<int>)
    requires AccruedDatabaseTime(s, t) == Some(k)
    ensures AccruedDatabaseTime(ApplyAll(s, t, TimeIncrements(vs)), t) == Some(k + Sum(vs))
    decreases |vs|
  {
    if |vs| > 0 {
      var s1 := Apply(s, t, IncrementTime(vs[0]));
      assert TimeIncrements(vs)[1..] == TimeIncrements(vs[1..]);
      TimeIncrementsAdd(s1, t, k + vs[0], vs[1..]);
    }
  }

  /** From an unset time, increments by `vs` accrue exactly their sum (nil when there are none). */
  lemma TimeOfIncrements(s: Store, t: ThreadId, vs: seq<int>)
    requires AccruedDatabaseTime(s, t).None?
    ensures AccruedDatabaseTime(ApplyAll(s, t, TimeIncrements(vs)), t)
         == (if |vs| == 0 then None else Some(Sum(vs)))
  {
    if |vs| > 0 {
      var s1 := Apply(s, t, IncrementTime(vs[0]));
      assert TimeIncrements(vs)[1..] == TimeIncrements(vs[1..]);
      TimeIncrementsAdd(s1, t, vs[0], vs[1..]);
    }
  }
}

=== FILE: instance.dfy ===
/**
 * One request's logging state (`Roda::EnhancedLogger::Instance`).
 *
 * An instance is created when an app starts handling a request, collects the
 * caller frames of routing matches, turns status, request and the calling
 * thread's database counters into log entries, and hands those entries to its
 * logger only if it is the primary (outermost) instance of the request.
 */
module RequestInstance {
  import opened Wrappers
  import Current

  /** A caller location: source file path and line number. */
  datatype Frame = Frame(path: string, lineno: int)

  /** The logger method an entry is sent to. */
  datatype Level = Info | Warn | Error

  /** Request parameters: a nested hash, passed through untouched. */
  datatype Param = Leaf(text: string) | Nested(entries: seq<(string, Param)>)

  /** What the instance reads from the Roda request object. */
  datatype Request = Request(verb: string, path: string, remainingPath: string, params: Param)

  /** Keys of the data hash of a summary entry. */
  datatype FieldName = Duration | Status | Verb | Path | RemainingPath | Handler | Params | Db | DbQueries

  /** Values of the data hash; `Nil` is a key present with a nil value. */
  datatype FieldValue =
    | Int(i: int)
    | Text(s: string)
    | Nil
    | Location(file: string, line: int)
    | ParamTree(p: Param)

  type Fields = map<FieldName, FieldValue>

  /** A summary line `"<verb> <path>"`, or a trace line for one match. */
  datatype Message =
    | Summary(text: string)
    | TraceLine(source: string, file: string, line: int)

  /**
   * One `[level, message]` or `[level, message, data]` record;
   * trace records carry no data.
   */
  datatype Entry = Entry(level: Level, message: Message, data: Option<Fields>)

  /**
   * What the instance reads from the file system: the path of a file relative
   * to the root, and the stripped source text at a file and line.
   */
  datatype Files = Files(relativePath: (string, string) -> string, sourceLine: (string, int) -> string)

  /** Values of the Rack env hash; `Unset` is a key holding nil. */
  datatype EnvValue = Unset | ObjectId(id: int) | Other(text: string)

  type Env = map<string, EnvValue>

  /** The env key through which nested apps learn that an outer app already logs this request. */
  const MarkerKey := "enhanced_logger_id"

  /** `!env["enhanced_logger_id"].nil?` */
  predicate Marked(env: Env) {
    MarkerKey in env && !env[MarkerKey].Unset?
  }

  /**
   * The instance's state. `matches` holds nil (`None`) where the match hook
   * found no frame under the root. The logger itself is not part of the
   * state: `Drain` returns what would be sent to it.
   */
  datatype Instance = Instance(
    root: string,
    logEntries: seq<Entry>,
    matches: seq<Option<Frame>>,
    timer: int,
    filter: string -> bool,
    primary: bool)

  /** The parts of an instance fixed at construction. */
  ghost predicate SameIdentity(a: Instance, b: Instance) {
    a.root == b.root && a.timer == b.timer && a.filter == b.filter && a.primary == b.primary
  }

  /**
   * `Instance.new(logger, env, instance_id, root, filter)` at clock reading `now`.
   * Returns the updated env and the new instance.
   */
  function New(env: Env, instanceId: int, root: string, filter: Option<string -> bool>, now: int): (r: (Env, Instance))
    ensures r.1.primary <==> !Marked(env)
    ensures r.1.primary ==> r.0.Keys == env.Keys + {MarkerKey} && r.0[MarkerKey] == ObjectId(instanceId)
    ensures r.1.primary ==> forall k :: k in env && k != MarkerKey ==> r.0[k] == env[k]
    ensures !r.1.primary ==> r.0 == env
    ensures Marked(r.0)
    ensures r.1.matches == [] && r.1.logEntries == []
    ensures r.1.root == root && r.1.timer == now
    ensures filter.None? ==> forall p :: !r.1.filter(p)
    ensures filter.Some? ==> forall p :: r.1.filter(p) == filter.value(p)
  {
    var inst := Instance(root, [], [], now, filter.GetOr(_ => false), !Marked(env));
    if Marked(env) then (env, inst) else (env[MarkerKey := ObjectId(instanceId)], inst)
  }

  /** `add_match(caller)`: appends one match, nil included. */
  function AddMatch(inst: Instance, m: Option<Frame>): (r: Instance)
    ensures |r.matches| == |inst.matches| + 1
    ensures r.matches[..|inst.matches|] == inst.matches && r.matches[|inst.matches|] == m
    ensures r.logEntries == inst.logEntries && SameIdentity(inst, r)
  {
    inst.(matches := inst.matches + [m])
  }

  /** `add_log_entry(record)`: appends one entry. */
  function AddLogEntry(inst: Instance, e: Entry): (r: Instance)
    ensures |r.logEntries| == |inst.logEntries| + 1
    ensures r.logEntries[..|inst.logEntries|] == inst.logEntries && r.logEntries[|inst.logEntries|] == e
    ensures r.matches == inst.matches && SameIdentity(inst, r)
  {
    inst.(logEntries := inst.logEntries + [e])
  }

  /** The level `add` picks for a response status. */
  function LevelFor(status: int): (r: Level)
    ensures r == Warn <==> 400 <= status <= 499
    ensures r == Error <==> 500 <= status <= 599
    ensures r == Info <==> status < 400 || status > 599
  {
    if 400 <= status <= 499 then Warn
    else if 500 <= status <= 599 then Error
    else Info
  }

  /** The `handler` value: the last match as `relative_path:line`, nil when there is none. */
  function HandlerValue(matches: seq<Option<Frame>>, root: string, files: Files): (r: FieldValue)
    ensures r.Nil? <==> |matches| == 0 || matches[|matches| - 1].None?
    ensures !r.Nil? ==> r == Location(files.relativePath(matches[|matches| - 1].value.path, root),
                                      matches[|matches| - 1].value.lineno)
  {
    if |matches| > 0 && matches[|matches| - 1].Some? then
      var last := matches[|matches| - 1].value;
      Location(files.relativePath(last.path, root), last.lineno)
    else
      Nil
  }

  /** Matches before the last one never influence the handler. */
  lemma HandlerOnlyFromLastMatch(a: seq<Option<Frame>>, b: seq<Option<Frame>>, m: Option<Frame>, root: string, files: Files)
    ensures HandlerValue(a + [m], root, files) == HandlerValue(b + [m], root, files)
    ensures HandlerValue(a + [m], root, files).Nil? <==> m.None?
  {
  }

  /** The keys every summary carries. */
  const BaseFields: set<FieldName> := {Duration, Status, Verb, Path, RemainingPath, Handler, Params}

  /**
   * The data hash of the summary entry. `db` and `db_queries` appear only when
   * the calling thread's counters are set; request values are copied as they are.
   */
  function SummaryData(inst: Instance, store: Current.Store, t: Current.ThreadId, status: int, req: Request,
                       now: int, files: Files): (r: Fields)
    ensures r.Keys == BaseFields
                      + (if Current.AccruedDatabaseTime(store, t).Some? then {Db} else {})
                      + (if Current.DatabaseQueryCount(store, t).Some? then {DbQueries} else {})
    ensures Db in r <==> Current.AccruedDatabaseTime(store, t).Some?
    ensures Db in r ==> r[Db] == Int(Current.AccruedDatabaseTime(store, t).value)
    ensures DbQueries in r <==> Current.DatabaseQueryCount(store, t).Some?
    ensures DbQueries in r ==> r[DbQueries] == Int(Current.DatabaseQueryCount(store, t).value)
    ensures r[Duration] == Int(now - inst.timer)
    ensures r[Status] == Int(status) && r[Verb] == Text(req.verb) && r[Path] == Text(req.path)
    ensures r[RemainingPath] == Text(req.remainingPath) && r[Params] == ParamTree(req.params)
    ensures r[Handler] == HandlerValue(inst.matches, inst.root, files)
  {
    var base := map[
      Duration := Int(now - inst.timer),
      Status := Int(status),
      Verb := Text(req.verb),
      Path := Text(req.path),
      RemainingPath := Text(req.remainingPath),
      Handler := HandlerValue(inst.matches, inst.root, files),
      Params := ParamTree(req.params)];
    var withDb := match Current.AccruedDatabaseTime(store, t)
      case Some(db) => base[Db := Int(db)]
      case None => base;
    match Current.DatabaseQueryCount(store, t)
    case Some(n) => withDb[DbQueries := Int(n)]
    case None => withDb
  }

  /** The summary entry `[level, "<verb> <path>", data]`. */
  function SummaryEntry(inst: Instance, store: Current.Store, t: Current.ThreadId, status: int, req: Request,
                        now: int, files: Files): Entry
  {
    Entry(LevelFor(status), Summary(req.verb + " " + req.path), Some(SummaryData(inst, store, t, status, req, now, files)))
  }

  /** The trace entry for one matched frame. */
  function TraceEntry(level: Level, f: Frame, root: string, files: Files): Entry {
    Entry(level, TraceLine(files.sourceLine(f.path, f.lineno), files.relativePath(f.path, root), f.lineno), None)
  }

  /**
   * The trace entries for `matches` in order. The second component is false
   * when a nil match stopped the walk (calling `path` on nil raises); the
   * entries built before it are kept.
   */
  function TraceLines(matches: seq<Option<Frame>>, level: Level, root: string, files: Files): (r: (seq<Entry>, bool))
    ensures r.1 <==> forall i :: 0 <= i < |matches| ==> matches[i].Some?
    ensures |r.0| <= |matches|
    ensures r.1 ==> |r.0| == |matches|
    ensures !r.1 ==> |r.0| < |matches| && matches[|r.0|].None?
    ensures forall i :: 0 <= i < |r.0| ==> matches[i].Some? && r.0[i] == TraceEntry(level, matches[i].value, root, files)
    decreases |matches|
  {
    if |matches| == 0 then ([], true)
    else match matches[0]
      case None => ([], false)
      case Some(f) =>
        var rest := TraceLines(matches[1..], level, root, files);
        ([TraceEntry(level, f, root, files)] + rest.0, rest.1)
  }

  /** How `add` ended: normally, or by raising part way through the trace. */
  datatype AddOutcome = Appended(inst: Instance) | Failed(inst: Instance)

  /** The entries `after` holds beyond those of `before`. */
  function NewEntries(before: Instance, after: Instance): seq<Entry>
    requires |before.logEntries| <= |after.logEntries|
  {
    after.logEntries[|before.logEntries|..]
  }

  /** Whether the first `k` entries of `es` are trace entries: a trace message and no data hash. */
  predicate TracesBefore(es: seq<Entry>, k: int) {
    forall i :: 0 <= i < k && i < |es| ==> es[i].message.TraceLine? && es[i].data.None?
  }

  /**
   * The trace step of `add`: appends the trace entries of every match in
   * order; the second component is false when a nil match raised.
   */
  function AddTrace(inst: Instance, level: Level, files: Files): (r: (Instance, bool))
    ensures r.0.matches == inst.matches && SameIdentity(inst, r.0)
    ensures inst.logEntries <= r.0.logEntries
    ensures r.1 <==> forall i :: 0 <= i < |inst.matches| ==> inst.matches[i].Some?
    ensures r.1 ==> |NewEntries(inst, r.0)| == |inst.matches|
    ensures !r.1 ==> |NewEntries(inst, r.0)| < |inst.matches| && inst.matches[|NewEntries(inst, r.0)|].None?
    ensures forall i :: 0 <= i < |NewEntries(inst, r.0)| ==>
              inst.matches[i].Some? && NewEntries(inst, r.0)[i] == TraceEntry(level, inst.matches[i].value, inst.root, files)
    ensures TracesBefore(NewEntries(inst, r.0), |NewEntries(inst, r.0)|)
    ensures forall e :: e in NewEntries(inst, r.0) ==> e.level == level
  {
    var traced := TraceLines(inst.matches, level, inst.root, files);
    var inst1 := inst.(logEntries := inst.logEntries + traced.0);
    assert NewEntries(inst, inst1) == traced.0;
    (inst1, traced.1)
  }

  /**
   * `add(status, request, trace)`, reading the counters of thread `t` in
   * `store` and the clock reading `now`. With `trace`, one entry per match
   * comes first; then the summary, unless the filter accepts the path.
   * Nothing but the entry list changes, and earlier entries stay in place.
   */
  function Add(inst: Instance, store: Current.Store, t: Current.ThreadId, status: int, req: Request, trace: bool,
               now: int, files: Files): (r: AddOutcome)
    ensures r.inst.matches == inst.matches && SameIdentity(inst, r.inst)
    ensures inst.logEntries <= r.inst.logEntries
    ensures r.Failed? <==> trace && exists i :: 0 <= i < |inst.matches| && inst.matches[i].None?
    ensures forall e :: e in NewEntries(inst, r.inst) ==> e.level == LevelFor(status)
    ensures r.Appended? ==>
              |NewEntries(inst, r.inst)| == (if trace then |inst.matches| else 0) + (if inst.filter(req.path) then 0 else 1)
  {
    var level := LevelFor(status);
    var (inst1, ok) := if trace then AddTrace(inst, level, files) else (inst, true);
    if !ok then Failed(inst1)
    else if inst.filter(req.path) then Appended(inst1)
    else Appended(AddLogEntry(inst1, SummaryEntry(inst, store, t, status, req, now, files)))
  }

  /** With `trace`, the entries `add` appends begin with one trace entry per match, in match order. */
  lemma AddTracesMatchesInOrder(inst: Instance, store: Current.Store, t: Current.ThreadId, status: int, req: Request,
                                now: int, files: Files)
    requires Add(inst, store, t, status, req, true, now, files).Appended?
    ensures var added := NewEntries(inst, Add(inst, store, t, status, req, true, now, files).inst);
            forall i :: 0 <= i < |inst.matches| ==>
              inst.matches[i].Some? && added[i] == TraceEntry(LevelFor(status), inst.matches[i].value, inst.root, files)
  {
  }

  /**
   * The filter decides only the summary: the summary is appended, as the last
   * entry and exactly once, iff `add` completes and the filter rejects the path;
   * every other appended entry is a trace entry.
   */
  lemma AddSummaryUnlessFiltered(inst: Instance, store: Current.Store, t: Current.ThreadId, status: int, req: Request,
                                 trace: bool, now: int, files: Files)
    ensures var r := Add(inst, store, t, status, req, trace, now, files);
            var added := NewEntries(inst, r.inst);
            && (r.Appended? && !inst.filter(req.path) ==>
                  |added| > 0 && added[|added| - 1] == SummaryEntry(inst, store, t, status, req, now, files)
                  && TracesBefore(added, |added| - 1))
            && (r.Failed? || inst.filter(req.path) ==> TracesBefore(added, |added|))
  {
  }

  /**
   * When a traced match is nil, `add` raises after appending the trace entries
   * of the matches before it, and appends no summary.
   */
  lemma AddFailsAtFirstNilMatch(inst: Instance, store: Current.Store, t: Current.ThreadId, status: int, req: Request,
                                now: int, files: Files)
    requires exists i :: 0 <= i < |inst.matches| && inst.matches[i].None?
    ensures var r := Add(inst, store, t, status, req, true, now, files);
            var added := NewEntries(inst, r.inst);
            && r.Failed?
            && |added| < |inst.matches| && inst.matches[|added|].None?
            && forall i :: 0 <= i < |added| ==>
                 inst.matches[i].Some? && added[i] == TraceEntry(LevelFor(status), inst.matches[i].value, inst.root, files)
  {
  }

  /** `add` reads nothing of the store but the calling thread's own slot. */
  lemma AddReadsOwnSlot(inst: Instance, s1: Current.Store, s2: Current.Store, t: Current.ThreadId, status: int,
                        req: Request, trace: bool, now: int, files: Files)
    requires Current.SlotOf(s1, t) == Current.SlotOf(s2, t)
    ensures Add(inst, s1, t, status, req, trace, now, files) == Add(inst, s2, t, status, req, trace, now, files)
  {
    assert SummaryData(inst, s1, t, status, req, now, files) == SummaryData(inst, s2, t, status, req, now, files);
  }

  /**
   * With the thread's counters unset, no entry `add` appends carries `db` or
   * `db_queries`: absent counters are omitted, never written as 0.
   */
  lemma AddOmitsUnsetCounters(inst: Instance, store: Current.Store, t: Current.ThreadId, status: int, req: Request,
                              trace: bool, now: int, files: Files)
    requires Current.SlotOf(store, t) == Current.Empty
    ensures var added := NewEntries(inst, Add(inst, store, t, status, req, trace, now, files).inst);
            forall i :: 0 <= i < |added| && added[i].data.Some? ==>
              Db !in added[i].data.value && DbQueries !in added[i].data.value
  {
    var r := Add(inst, store, t, status, req, trace, now, files);
    var summary := SummaryEntry(inst, store, t, status, req, now, files);
    assert Db !in summary.data.value && DbQueries !in summary.data.value;
    var added := NewEntries(inst, r.inst);
    if trace {
      var (inst1, ok) := AddTrace(inst, LevelFor(status), files);
      var traced := NewEntries(inst, inst1);
      if ok && !inst.filter(req.path) {
        assert added == traced + [summary];
        assert forall i :: 0 <= i < |traced| ==> added[i].data.None?;
      } else {
        assert added == traced;
      }
    } else if !inst.filter(req.path) {
      assert added == [summary];
    } else {
      assert added == [];
    }
  }

  /** `drain`: what the logger receives, in order; nothing from a non-primary instance. */
  function Drain(inst: Instance): (r: seq<Entry>)
    ensures !inst.primary ==> |r| == 0
    ensures inst.primary ==> |r| == |inst.logEntries| && forall i :: 0 <= i < |r| ==> r[i] == inst.logEntries[i]
  {
    if inst.primary then inst.logEntries else []
  }

  /** `reset`: resets the calling thread's counters through `Current`. */
  function Reset(store: Current.Store, t: Current.ThreadId): (r: (Current.Store, bool))
    ensures r.1
    ensures Current.SlotOf(r.0, t) == Current.Empty
    ensures Current.OthersUnchanged(store, r.0, t)
  {
    Current.Reset(store, t)
  }
}

=== FILE: plugin.dfy ===
/**
 * The `enhanced_logger` Roda plugin (`Roda::RodaPlugins::EnhancedLogger`):
 * option defaults, the match hook that records caller frames, and the before
 * and after hooks that create an instance per request and, when the response
 * is ready, build its entries, drain them to the app's logger and reset the
 * calling thread's counters.
 *
 * A request is described by a `Dispatch`: the app that handles it and the
 * script of events that happen while its route block runs (routing matches,
 * database activity, and nested apps called on the same env). `Serve` plays
 * the hooks around that script on one thread. Roda's `r.run` is the case where
 * the nested call is the route block's last event: it halts the block and its
 * response becomes the outer app's response.
 */
module EnhancedLogger {
  import opened Wrappers
  import Current
  import opened RequestInstance

  /** Option keys; `Custom` stands for any other key a user passes. */
  datatype Key = DbKey | LogTime | TraceMissed | TraceAll | FilteredParams | Handlers | Filter | Output | Custom(name: string)

  /** Option values; `Flag(false)` and `NilValue` are Ruby's false values. */
  datatype Value =
    | NilValue
    | Flag(b: bool)
    | Names(names: seq<string>)
    | PathFilter(accepts: string -> bool)
    | Opaque(tag: string)

  type Options = map<Key, Value>

  /** `DEFAULTS` */
  const Defaults: Options := map[
    DbKey := NilValue,
    LogTime := Flag(false),
    TraceMissed := Flag(true),
    TraceAll := Flag(false),
    FilteredParams := Names(["password", "password_confirmation", "_csrf"]),
    Handlers := Names(["console"])]

  /** `options[k]`: nil for a missing key. */
  function Lookup(o: Options, k: Key): Value {
    if k in o then o[k] else NilValue
  }

  /** Ruby truthiness: everything but nil and false. */
  predicate Truthy(v: Value) {
    !(v.NilValue? || (v.Flag? && !v.b))
  }

  /** `DEFAULTS.merge(opts)`: a user key replaces the default; every other default stays. */
  function Configure(opts: Options): (r: Options)
    ensures r.Keys == Defaults.Keys + opts.Keys
    ensures forall k :: k in opts ==> r[k] == opts[k]
    ensures forall k :: k in Defaults && k !in opts ==> r[k] == Defaults[k]
  {
    Defaults + opts
  }

  /** `(options[:trace_missed] && status == 404) || options[:trace_all]`, read for its truth. */
  function TraceRequested(options: Options, status: int): (r: bool)
    ensures Truthy(Lookup(options, TraceAll)) ==> r
    ensures !Truthy(Lookup(options, TraceAll)) ==> (r <==> Truthy(Lookup(options, TraceMissed)) && status == 404)
  {
    (Truthy(Lookup(options, TraceMissed)) && status == 404) || Truthy(Lookup(options, TraceAll))
  }

  /** When the user sets neither trace option, a request is traced exactly when its status is 404. */
  lemma DefaultTraceOnlyOnMissed(opts: Options, status: int)
    requires TraceMissed !in opts && TraceAll !in opts
    ensures TraceRequested(Configure(opts), status) <==> status == 404
  {
  }

  /** `options[:filter]`, as handed to `Instance.new`: a proc, or nil for any false value. */
  function FilterOf(options: Options): (r: Option<string -> bool>)
    ensures r.Some? <==> Lookup(options, Filter).PathFilter?
    ensures r.Some? ==> r.value == Lookup(options, Filter).accepts
  {
    match Lookup(options, Filter)
    case PathFilter(f) => Some(f)
    case _ => None
  }

  /** Index of the first frame whose path starts with `root`, or `|frames|` when none does. */
  function FirstUnderRoot(frames: seq<Frame>, root: string): (k: nat)
    ensures k <= |frames|
    ensures forall j :: 0 <= j < k ==> !(root <= frames[j].path)
    ensures k < |frames| ==> root <= frames[k].path
    decreases |frames|
  {
    if |frames| == 0 then 0
    else if root <= frames[0].path then 0
    else 1 + FirstUnderRoot(frames[1..], root)
  }

  /** `caller_locations.find { |l| l.path.start_with?(root.to_s) }` */
  function SelectFrame(frames: seq<Frame>, root: string): (r: Option<Frame>)
    ensures r.None? <==> forall j :: 0 <= j < |frames| ==> !(root <= frames[j].path)
    ensures r.Some? ==> exists k :: 0 <= k < |frames| && frames[k] == r.value && root <= r.value.path &&
                                    forall j :: 0 <= j < k ==> !(root <= frames[j].path)
  {
    var k := FirstUnderRoot(frames, root);
    if k < |frames| then Some(frames[k]) else None
  }

  /** The match hook: appends the selected frame, or nil when no frame lies under the root. */
  function MatchHook(inst: Instance, frames: seq<Frame>, root: string): (r: Instance)
    ensures |r.matches| == |inst.matches| + 1 && r.matches[..|inst.matches|] == inst.matches
    ensures r.matches[|inst.matches|].None? <==> forall j :: 0 <= j < |frames| ==> !(root <= frames[j].path)
    ensures r.matches[|inst.matches|].Some? ==> root <= r.matches[|inst.matches|].value.path
    ensures r.matches[|inst.matches|] == SelectFrame(frames, root)
    ensures r.logEntries == inst.logEntries && SameIdentity(inst, r)
  {
    AddMatch(inst, SelectFrame(frames, root))
  }

  /** A configured app: its logger, its merged options, and `app.opts[:root] || Dir.pwd`. */
  datatype App = App(logger: nat, options: Options, root: string)

  /** What happens while an app's route block runs. */
  datatype Event =
    | Matched(frames: seq<Frame>)   // a routing match, with `caller_locations` at the hook
    | AccrueTime(ticks: int)        // a database call adds to the accrued time
    | CountQueries(n: int)          // a call of `increment_database_query_count(n)`
    | Run(inner: Dispatch)          // a nested app's `call(env)` on the same env and thread

  /**
   * One app handling one request: the app instance's `object_id`, the request,
   * the route block's events, the response status, and the clock readings at
   * the before and after hooks.
   */
  datatype Dispatch = Dispatch(
    app: App,
    objectId: int,
    request: Request,
    events: seq<Event>,
    status: int,
    startedAt: int,
    finishedAt: int)

  /** Thread-local storage, the request's Rack env, and what each logger has received. */
  datatype World = World(store: Current.Store, env: Env, outputs: map<nat, seq<Entry>>)

  /** What logger `k` has received so far. */
  function OutputOf(outputs: map<nat, seq<Entry>>, k: nat): seq<Entry> {
    if k in outputs then outputs[k] else []
  }

  /** Every logger has received the same entries in `a` and in `b`. */
  ghost predicate SameOutputs(a: map<nat, seq<Entry>>, b: map<nat, seq<Entry>>) {
    forall k :: OutputOf(a, k) == OutputOf(b, k)
  }

  /** Logger `k` receives `es` after what it already has; no other logger changes. */
  function Emit(outputs: map<nat, seq<Entry>>, k: nat, es: seq<Entry>): (r: map<nat, seq<Entry>>)
    ensures OutputOf(r, k) == OutputOf(outputs, k) + es
    ensures forall j :: j != k ==> OutputOf(r, j) == OutputOf(outputs, j)
  {
    outputs[k := OutputOf(outputs, k) + es]
  }

  /** How hooks and route blocks end: normally, or with an exception leaving them. */
  datatype Outcome = Done(world: World, inst: Instance) | Raised(world: World)

  /** The before hook: `Instance.new(logger, env, object_id, root, options[:filter])`. */
  function BeforeHook(w: World, d: Dispatch): (r: (World, Instance))
    ensures r.1.primary <==> !Marked(w.env)
    ensures Marked(r.0.env) && r.0.store == w.store && r.0.outputs == w.outputs
    ensures Marked(w.env) ==> r.0.env == w.env
    ensures !Marked(w.env) ==> r.0.env == w.env[MarkerKey := ObjectId(d.objectId)]
    ensures r.1.matches == [] && r.1.logEntries == [] && r.1.root == d.app.root && r.1.timer == d.startedAt
    ensures forall p :: r.1.filter(p) <==> Lookup(d.app.options, Filter).PathFilter? && Lookup(d.app.options, Filter).accepts(p)
  {
    var (env, inst) := New(w.env, d.objectId, d.app.root, FilterOf(d.app.options), d.startedAt);
    (w.(env := env), inst)
  }

  /**
   * The after hook: `add`, then `drain`, then `reset`, on thread `t`. When
   * `add` raises, drain and reset never run and the world is left as it was.
   */
  function AfterHook(w: World, t: Current.ThreadId, app: App, inst: Instance, status: int, req: Request,
                     now: int, files: Files): (r: Outcome)
    ensures r.world.env == w.env
    ensures r.Raised? <==> TraceRequested(app.options, status) && exists i :: 0 <= i < |inst.matches| && inst.matches[i].None?
    ensures r.Raised? ==> r.world == w
    ensures r.Done? ==> Add(inst, w.store, t, status, req, TraceRequested(app.options, status), now, files) == Appended(r.inst)
    ensures r.Done? ==> Current.SlotOf(r.world.store, t) == Current.Empty
    ensures r.Done? ==> Current.OthersUnchanged(w.store, r.world.store, t)
    ensures r.Done? && inst.primary ==>
              OutputOf(r.world.outputs, app.logger) == OutputOf(w.outputs, app.logger) + r.inst.logEntries
    ensures r.Done? && !inst.primary ==> OutputOf(r.world.outputs, app.logger) == OutputOf(w.outputs, app.logger)
    ensures forall k :: k != app.logger ==> OutputOf(r.world.outputs, k) == OutputOf(w.outputs, k)
  {
    match Add(inst, w.store, t, status, req, TraceRequested(app.options, status), now, files)
    case Failed(_) => Raised(w)
    case Appended(added) =>
      var outputs := Emit(w.outputs, app.logger, Drain(added));
      Done(World(RequestInstance.Reset(w.store, t).0, w.env, outputs), added)
  }

  /** The number of `Matched` events in `events[i..]`. */
  function MatchesFrom(events: seq<Event>, i: nat): nat
    requires i <= |events|
    decreases |events| - i
  {
    if i == |events| then 0 else (if events[i].Matched? then 1 else 0) + MatchesFrom(events, i + 1)
  }

  /**
   * What the match hook records for the `Matched` events of `events[i..]`, in
   * event order: the first frame under `root`, or nil.
   */
  function Selected(events: seq<Event>, i: nat, root: string): (r: seq<Option<Frame>>)
    requires i <= |events|
    ensures |r| == MatchesFrom(events, i)
    decreases |events| - i
  {
    if i == |events| then []
    else if events[i].Matched? then [SelectFrame(events[i].frames, root)] + Selected(events, i + 1, root)
    else Selected(events, i + 1, root)
  }

  /**
   * The calling thread's slot after the events `events[i..]`, starting from
   * `s`: a database event adds to its variable the way `||= 0` then `+=`
   * does, a completed nested app leaves both variables unset (its after hook
   * resets them), and a match event leaves the slot alone.
   */
  function SlotAfter(s: Current.Slot, events: seq<Event>, i: nat): Current.Slot
    requires i <= |events|
    decreases |events| - i
  {
    if i == |events| then s
    else match events[i]
      case Matched(_) => SlotAfter(s, events, i + 1)
      case AccrueTime(v) => SlotAfter(s.(time := Some(s.time.GetOr(0) + v)), events, i + 1)
      case CountQueries(n) => SlotAfter(s.(count := Some(s.count.GetOr(0) + n)), events, i + 1)
      case Run(_) => SlotAfter(Current.Empty, events, i + 1)
  }

  /**
   * A nested app at `j` wipes out whatever the events before it accrued: the
   * slot at the end depends only on the events after `j`.
   */
  lemma {:induction false} SlotAfterForgetsBeforeNested(s: Current.Slot, events: seq<Event>, i: nat, j: nat)
    requires i <= j < |events| && events[j].Run?
    ensures SlotAfter(s, events, i) == SlotAfter(Current.Empty, events, j + 1)
    decreases j - i
  {
    if i < j {
      match events[i]
      case Matched(_) =>
        SlotAfterForgetsBeforeNested(s, events, i + 1, j);
      case AccrueTime(v) =>
        SlotAfterForgetsBeforeNested(s.(time := Some(s.time.GetOr(0) + v)), events, i + 1, j);
      case CountQueries(n) =>
        SlotAfterForgetsBeforeNested(s.(count := Some(s.count.GetOr(0) + n)), events, i + 1, j);
      case Run(_) =>
        SlotAfterForgetsBeforeNested(Current.Empty, events, i + 1, j);
    }
  }

  /**
   * One app serving one request on thread `t`: the before hook, the route
   * block's events, then the after hook. A nested app shares the env and the
   * thread, so it finds the marker set and never logs; its after hook still
   * resets the thread's counters.
   */
  function Serve(w: World, t: Current.ThreadId, d: Dispatch, files: Files): (r: Outcome)
    ensures forall u :: u != t ==> Current.SlotOf(r.world.store, u) == Current.SlotOf(w.store, u)
    ensures r.Done? ==> Current.SlotOf(r.world.store, t) == Current.Empty
    ensures Marked(r.world.env)
    ensures Marked(w.env) ==> r.world.env == w.env && SameOutputs(r.world.outputs, w.outputs)
    ensures !Marked(w.env) ==> r.world.env == w.env[MarkerKey := ObjectId(d.objectId)]
    ensures forall k :: k != d.app.logger ==> OutputOf(r.world.outputs, k) == OutputOf(w.outputs, k)
    ensures r.Done? ==> (r.inst.primary <==> !Marked(w.env))
    ensures r.Done? && !Marked(w.env) ==>
              OutputOf(r.world.outputs, d.app.logger) == OutputOf(w.outputs, d.app.logger) + r.inst.logEntries
    decreases d, 1
  {
    var (w1, inst) := BeforeHook(w, d);
    match RunEvents(w1, t, d, inst, 0, files)
    case Raised(w2) => Raised(w2)
    case Done(w2, inst2) =>
      AfterHook(w2, t, d.app, inst2, d.status, d.request, d.finishedAt, files)
  }

  /**
   * The route block of `d` from event `i` on, with the app's instance `inst`.
   * The env is already marked, so nested apps change neither it nor any output.
   */
  function RunEvents(w: World, t: Current.ThreadId, d: Dispatch, inst: Instance, i: nat, files: Files): (r: Outcome)
    requires i <= |d.events|
    requires Marked(w.env)
    ensures forall u :: u != t ==> Current.SlotOf(r.world.store, u) == Current.SlotOf(w.store, u)
    ensures r.world.env == w.env && SameOutputs(r.world.outputs, w.outputs)
    ensures r.Done? ==> r.inst.logEntries == inst.logEntries && SameIdentity(inst, r.inst)
    ensures r.Done? ==> r.inst.matches == inst.matches + Selected(d.events, i, d.app.root)
    ensures r.Done? && i < |d.events| && d.events[|d.events| - 1].Run? ==>
              Current.SlotOf(r.world.store, t) == Current.Empty
    decreases d, 0, |d.events| - i
  {
    if i == |d.events| then Done(w, inst)
    else match d.events[i]
      case Matched(frames) =>
        var sel := SelectFrame(frames, d.app.root);
        var r := RunEvents(w, t, d, MatchHook(inst, frames, d.app.root), i + 1, files);
        assert Selected(d.events, i, d.app.root) == [sel] + Selected(d.events, i + 1, d.app.root);
        assert r.Done? ==> r.inst.matches == (inst.matches + [sel]) + Selected(d.events, i + 1, d.app.root);
        r
      case AccrueTime(ticks) =>
        RunEvents(w.(store := Current.IncrementAccruedDatabaseTime(w.store, t, ticks).0), t, d, inst, i + 1, files)
      case CountQueries(n) =>
        RunEvents(w.(store := Current.IncrementDatabaseQueryCount(w.store, t, n).0), t, d, inst, i + 1, files)
      case Run(inner) =>
        match Serve(w, t, inner, files)
        case Raised(w2) => Raised(w2)
        case Done(w2, _) =>
          assert Selected(d.events, i, d.app.root) == Selected(d.events, i + 1, d.app.root);
          RunEvents(w2, t, d, inst, i + 1, files)
  }

  /** One step of the route block: a database event updates the store and the block goes on. */
  lemma RunEventsDatabaseStep(w: World, t: Current.ThreadId, d: Dispatch, inst: Instance, i: nat, files: Files)
    requires i < |d.events| && Marked(w.env) && (d.events[i].AccrueTime? || d.events[i].CountQueries?)
    ensures var slot := Current.SlotOf(w.store, t);
            var w1 := if d.events[i].AccrueTime?
                      then w.(store := Current.IncrementAccruedDatabaseTime(w.store, t, d.events[i].ticks).0)
                      else w.(store := Current.IncrementDatabaseQueryCount(w.store, t, d.events[i].n).0);
            && RunEvents(w, t, d, inst, i, files) == RunEvents(w1, t, d, inst, i + 1, files)
            && SlotAfter(slot, d.events, i) == SlotAfter(Current.SlotOf(w1.store, t), d.events, i + 1)
  {
  }

  /** One step of the route block: a completed nested app leaves the slot empty and the block goes on. */
  lemma RunEventsNestedStep(w: World, t: Current.ThreadId, d: Dispatch, inst: Instance, i: nat, files: Files)
    requires i < |d.events| && Marked(w.env) && d.events[i].Run?
    requires Serve(w, t, d.events[i].inner, files).Done?
    ensures var s := Serve(w, t, d.events[i].inner, files);
            && RunEvents(w, t, d, inst, i, files) == RunEvents(s.world, t, d, inst, i + 1, files)
            && Marked(s.world.env)
            && SlotAfter(Current.SlotOf(w.store, t), d.events, i) == SlotAfter(Current.SlotOf(s.world.store, t), d.events, i + 1)
  {
  }

  /**
   * When the route block completes, the calling thread's slot is what
   * `SlotAfter` predicts from its events: the database events after the last
   * nested app, added onto what that app's reset left (or onto the slot the
   * block started with, when there is no nested app).
   */
  lemma {:induction false} RunEventsSlot(w: World, t: Current.ThreadId, d: Dispatch, inst: Instance, i: nat, files: Files)
    requires i <= |d.events| && Marked(w.env)
    ensures var r := RunEvents(w, t, d, inst, i, files);
            r.Done? ==> Current.SlotOf(r.world.store, t) == SlotAfter(Current.SlotOf(w.store, t), d.events, i)
    decreases |d.events| - i
  {
    if i < |d.events| {
      var e := d.events[i];
      if e.Matched? {
        RunEventsSlot(w, t, d, MatchHook(inst, e.frames, d.app.root), i + 1, files);
      } else if e.AccrueTime? {
        RunEventsDatabaseStep(w, t, d, inst, i, files);
        RunEventsSlot(w.(store := Current.IncrementAccruedDatabaseTime(w.store, t, e.ticks).0), t, d, inst, i + 1, files);
      } else if e.CountQueries? {
        RunEventsDatabaseStep(w, t, d, inst, i, files);
        RunEventsSlot(w.(store := Current.IncrementDatabaseQueryCount(w.store, t, e.n).0), t, d, inst, i + 1, files);
      } else if Serve(w, t, e.inner, files).Done? {
        RunEventsNestedStep(w, t, d, inst, i, files);
        RunEventsSlot(Serve(w, t, e.inner, files).world, t, d, inst, i + 1, files);
      }
    }
  }

  /**
   * A completed request's entries are exactly what `add` produces for the
   * route block's matches when it reads the slot `SlotAfter` predicts: so
   * `db` and `db_queries` carry what the block accrued after its last nested
   * app, and nothing from before it.
   */
  lemma ServeReadsSlotAfter(w: World, t: Current.ThreadId, d: Dispatch, files: Files)
    ensures var r := Serve(w, t, d, files);
            r.Done? ==> Add(BeforeHook(w, d).1.(matches := Selected(d.events, 0, d.app.root)),
                            w.store[t := SlotAfter(Current.SlotOf(w.store, t), d.events, 0)], t,
                            d.status, d.request, TraceRequested(d.app.options, d.status),
                            d.finishedAt, files) == Appended(r.inst)
  {
    var (w1, inst) := BeforeHook(w, d);
    var ev := RunEvents(w1, t, d, inst, 0, files);
    if ev.Done? {
      RunEventsSlot(w1, t, d, inst, 0, files);
      var trace := TraceRequested(d.app.options, d.status);
      var store := w.store[t := SlotAfter(Current.SlotOf(w.store, t), d.events, 0)];
      assert ev.inst == inst.(matches := Selected(d.events, 0, d.app.root));
      AddReadsOwnSlot(ev.inst, ev.world.store, store, t, d.status, d.request, trace, d.finishedAt, files);
      assert Serve(w, t, d, files) == AfterHook(ev.world, t, d.app, ev.inst, d.status, d.request, d.finishedAt, files);
    }
  }
}

=== FILE: scenarios.dfy ===
/**
 * Whole requests played through the plugin's hooks: what each logger receives
 * and what the calling thread's counters hold afterwards.
 */
module Scenarios {
  import opened Wrappers
  import Current
  import opened RequestInstance
  import opened EnhancedLogger

  /** The `Current` calls made by the database events of `events[i..]`, in order. */
  function CallsFrom(events: seq<Event>, i: nat): seq<Current.Call>
    requires i <= |events|
    decreases |events| - i
  {
    if i == |events| then []
    else match events[i]
      case AccrueTime(v) => [Current.IncrementTime(v)] + CallsFrom(events, i + 1)
      case CountQueries(n) => [Current.IncrementCount(n)] + CallsFrom(events, i + 1)
      case _ => CallsFrom(events, i + 1)
  }

  /** No event of `events[i..]` runs a nested app. */
  predicate NoNesting(events: seq<Event>, i: nat) {
    forall j :: i <= j < |events| ==> !events[j].Run?
  }

  lemma ApplyAllCons(s: Current.Store, t: Current.ThreadId, c: Current.Call, rest: seq<Current.Call>)
    ensures Current.ApplyAll(s, t, [c] + rest) == Current.ApplyAll(Current.Apply(s, t, c), t, rest)
  {
  }

  /**
   * A route block without nested apps always completes, and leaves the
   * thread's counters as the `Current` calls of its database events make them.
   */
  lemma {:induction false} FlatRouteBlock(w: World, t: Current.ThreadId, d: Dispatch, inst: Instance, i: nat, files: Files)
    requires i <= |d.events| && Marked(w.env) && NoNesting(d.events, i)
    ensures RunEvents(w, t, d, inst, i, files).Done?
    ensures RunEvents(w, t, d, inst, i, files).world.store == Current.ApplyAll(w.store, t, CallsFrom(d.events, i))
    decreases |d.events| - i
  {
    if i < |d.events| {
      match d.events[i]
      case Matched(frames) =>
        FlatRouteBlock(w, t, d, MatchHook(inst, frames, d.app.root), i + 1, files);
      case AccrueTime(v) =>
        var w1 := w.(store := Current.IncrementAccruedDatabaseTime(w.store, t, v).0);
        FlatRouteBlock(w1, t, d, inst, i + 1, files);
        ApplyAllCons(w.store, t, Current.IncrementTime(v), CallsFrom(d.events, i + 1));
      case CountQueries(n) =>
        var w1 := w.(store := Current.IncrementDatabaseQueryCount(w.store, t, n).0);
        FlatRouteBlock(w1, t, d, inst, i + 1, files);
        ApplyAllCons(w.store, t, Current.IncrementCount(n), CallsFrom(d.events, i + 1));
    }
  }

  /** A match event whose frames all lie outside the root leaves a nil in the match list. */
  lemma {:induction false} ForeignFrameRecordsNil(w: World, t: Current.ThreadId, d: Dispatch, inst: Instance, i: nat,
                                                  j: nat, files: Files)
    requires i <= j < |d.events| && Marked(w.env)
    requires d.events[j].Matched?
    requires forall f :: 0 <= f < |d.events[j].frames| ==> !(d.app.root <= d.events[j].frames[f].path)
    requires RunEvents(w, t, d, inst, i, files).Done?
    ensures exists k :: 0 <= k < |RunEvents(w, t, d, inst, i, files).inst.matches| &&
                        RunEvents(w, t, d, inst, i, files).inst.matches[k].None?
    decreases j - i
  {
    var r := RunEvents(w, t, d, inst, i, files);
    match d.events[i]
    case Matched(frames) =>
      var inst1 := MatchHook(inst, frames, d.app.root);
      assert r == RunEvents(w, t, d, inst1, i + 1, files);
      if i == j {
        assert inst1.matches <= r.inst.matches;
        assert r.inst.matches[|inst.matches|].None?;
      } else {
        ForeignFrameRecordsNil(w, t, d, inst1, i + 1, j, files);
      }
    case AccrueTime(v) =>
      var w1 := w.(store := Current.IncrementAccruedDatabaseTime(w.store, t, v).0);
      assert r == RunEvents(w1, t, d, inst, i + 1, files);
      ForeignFrameRecordsNil(w1, t, d, inst, i + 1, j, files);
    case CountQueries(n) =>
      var w1 := w.(store := Current.IncrementDatabaseQueryCount(w.store, t, n).0);
      assert r == RunEvents(w1, t, d, inst, i + 1, files);
      ForeignFrameRecordsNil(w1, t, d, inst, i + 1, j, files);
    case Run(inner) =>
      var s := Serve(w, t, inner, files);
      assert s.Done?;
      assert r == RunEvents(s.world, t, d, inst, i + 1, files);
      ForeignFrameRecordsNil(s.world, t, d, inst, i + 1, j, files);
  }

  /** Whether the filter configured in `options` accepts `path`. */
  predicate FilterAccepts(options: Options, path: string) {
    Lookup(options, Filter).PathFilter? && Lookup(options, Filter).accepts(path)
  }

  /**
   * An outermost request without nested apps, not traced and not filtered,
   * logs exactly one entry: the summary `"<verb> <path>"` at the status's
   * level, whose `db` and `db_queries` are what the route block accrued on
   * the thread. Afterwards the thread's counters are unset again.
   */
  lemma FlatRequestLogsOneSummary(w: World, t: Current.ThreadId, d: Dispatch, files: Files)
    requires !Marked(w.env) && NoNesting(d.events, 0)
    requires !TraceRequested(d.app.options, d.status) && !FilterAccepts(d.app.options, d.request.path)
    ensures var r := Serve(w, t, d, files);
            var accrued := Current.ApplyAll(w.store, t, CallsFrom(d.events, 0));
            && r.Done?
            && |OutputOf(r.world.outputs, d.app.logger)| == |OutputOf(w.outputs, d.app.logger)| + 1
            && OutputOf(r.world.outputs, d.app.logger)[..|OutputOf(w.outputs, d.app.logger)|] == OutputOf(w.outputs, d.app.logger)
            && var e := OutputOf(r.world.outputs, d.app.logger)[|OutputOf(w.outputs, d.app.logger)|];
            && e.level == LevelFor(d.status)
            && e.message == Summary(d.request.verb + " " + d.request.path)
            && e.data.Some?
            && e.data.value[Status] == Int(d.status)
            && (Db in e.data.value <==> Current.AccruedDatabaseTime(accrued, t).Some?)
            && (Db in e.data.value ==> e.data.value[Db] == Int(Current.AccruedDatabaseTime(accrued, t).value))
            && (DbQueries in e.data.value <==> Current.DatabaseQueryCount(accrued, t).Some?)
            && (DbQueries in e.data.value ==> e.data.value[DbQueries] == Int(Current.DatabaseQueryCount(accrued, t).value))
            && Current.SlotOf(r.world.store, t) == Current.Empty
  {
    var (w1, inst) := BeforeHook(w, d);
    FlatRouteBlock(w1, t, d, inst, 0, files);
    var ev := RunEvents(w1, t, d, inst, 0, files);
    var r := AfterHook(ev.world, t, d.app, ev.inst, d.status, d.request, d.finishedAt, files);
    assert r == Serve(w, t, d, files);
    assert !ev.inst.filter(d.request.path);
    AddSummaryUnlessFiltered(ev.inst, ev.world.store, t, d.status, d.request, false, d.finishedAt, files);
    assert r.inst.logEntries == NewEntries(ev.inst, r.inst);
  }

  /**
   * A request whose path the filter accepts, not traced, sends nothing to any
   * logger, whether it completes or raises and whether or not it is nested
   * or runs nested apps. An outermost one without nested apps completes.
   */
  lemma FilteredRequestLogsNothing(w: World, t: Current.ThreadId, d: Dispatch, files: Files)
    requires !TraceRequested(d.app.options, d.status) && FilterAccepts(d.app.options, d.request.path)
    ensures !Marked(w.env) && NoNesting(d.events, 0) ==> Serve(w, t, d, files).Done?
    ensures SameOutputs(Serve(w, t, d, files).world.outputs, w.outputs)
  {
    var (w1, inst) := BeforeHook(w, d);
    if NoNesting(d.events, 0) {
      FlatRouteBlock(w1, t, d, inst, 0, files);
    }
    var ev := RunEvents(w1, t, d, inst, 0, files);
    if ev.Done? {
      var r := AfterHook(ev.world, t, d.app, ev.inst, d.status, d.request, d.finishedAt, files);
      assert r == Serve(w, t, d, files);
      assert ev.inst.filter(d.request.path);
      assert |r.inst.logEntries| == 0;
    }
  }

  /**
   * With default options and a user filter that accepts the path, any status
   * but 404 leaves every logger untouched.
   */
  lemma DefaultOptionsFilteredPathSilent(w: World, t: Current.ThreadId, d: Dispatch, f: string -> bool, files: Files)
    requires d.app.options == Configure(map[Filter := PathFilter(f)])
    requires f(d.request.path) && d.status != 404
    ensures !Marked(w.env) && NoNesting(d.events, 0) ==> Serve(w, t, d, files).Done?
    ensures SameOutputs(Serve(w, t, d, files).world.outputs, w.outputs)
  {
    DefaultTraceOnlyOnMissed(map[Filter := PathFilter(f)], d.status);
    assert Lookup(d.app.options, Filter) == PathFilter(f);
    FilteredRequestLogsNothing(w, t, d, files);
  }

  /**
   * `n` default query-count increments on a thread with unset counters show
   * up as `db_queries` = n in the summary, with no `db` field.
   */
  lemma QueryCountReachesSummary(w: World, t: Current.ThreadId, d: Dispatch, n: nat, files: Files)
    requires Current.SlotOf(w.store, t) == Current.Empty && n > 0
    requires d.events == seq(n, _ => CountQueries(1))
    requires !Marked(w.env)
    requires !TraceRequested(d.app.options, d.status) && !FilterAccepts(d.app.options, d.request.path)
    ensures var r := Serve(w, t, d, files);
            && r.Done?
            && var e := OutputOf(r.world.outputs, d.app.logger)[|OutputOf(w.outputs, d.app.logger)|];
            && e.data.Some? && DbQueries in e.data.value && e.data.value[DbQueries] == Int(n)
            && Db !in e.data.value
  {
    assert CallsFrom(d.events, 0) == Current.DefaultCountIncrements(n) by {
      CallsOfCountEvents(d.events, 0);
    }
    Current.CountOfDefaultIncrements(w.store, t, n);
    Current.TimeUnsetUntilWritten(w.store, t, Current.DefaultCountIncrements(n));
    FlatRequestLogsOneSummary(w, t, d, files);
  }

  /** The calls made by a run of default query-count events are default count increments. */
  lemma {:induction false} CallsOfCountEvents(events: seq<Event>, i: nat)
    requires i <= |events|
    requires forall j :: 0 <= j < |events| ==> events[j] == CountQueries(1)
    ensures CallsFrom(events, i) == Current.DefaultCountIncrements(|events| - i)
    decreases |events| - i
  {
    if i < |events| {
      CallsOfCountEvents(events, i + 1);
      assert Current.DefaultCountIncrements(|events| - i)
          == [Current.IncrementCount(1)] + Current.DefaultCountIncrements(|events| - i - 1);
    }
  }

  /** No entry of `es` carries `db` or `db_queries`. */
  predicate NoDatabaseFields(es: seq<Entry>) {
    forall i :: 0 <= i < |es| && es[i].data.Some? ==> Db !in es[i].data.value && DbQueries !in es[i].data.value
  }

  /**
   * When the route block ends by running a nested app, that app's after hook
   * has already reset the thread's counters, so no entry of the outer request
   * carries `db` or `db_queries`, whatever the block accrued before.
   */
  lemma InnerRunHidesOuterDatabaseFields(w: World, t: Current.ThreadId, d: Dispatch, files: Files)
    requires |d.events| > 0 && d.events[|d.events| - 1].Run?
    requires Serve(w, t, d, files).Done?
    ensures NoDatabaseFields(Serve(w, t, d, files).inst.logEntries)
  {
    var (w1, inst) := BeforeHook(w, d);
    var ev := RunEvents(w1, t, d, inst, 0, files);
    assert ev.Done? && Current.SlotOf(ev.world.store, t) == Current.Empty;
    var trace := TraceRequested(d.app.options, d.status);
    var added := Add(ev.inst, ev.world.store, t, d.status, d.request, trace, d.finishedAt, files);
    assert Serve(w, t, d, files).inst == added.inst;
    AddOmitsUnsetCounters(ev.inst, ev.world.store, t, d.status, d.request, trace, d.finishedAt, files);
    assert added.inst.logEntries == NewEntries(ev.inst, added.inst);
  }

  /**
   * The nested-app case: an outer app whose route block only runs a nested app
   * with its own logger. The nested logger receives nothing; the outer logger
   * receives exactly one summary, without `db` or `db_queries`; the thread's
   * counters end unset.
   */
  lemma NestedAppOnlyOuterLogs(w: World, t: Current.ThreadId, d: Dispatch, inner: Dispatch, files: Files)
    requires !Marked(w.env)
    requires d.events == [Run(inner)] && NoNesting(inner.events, 0)
    requires inner.app.logger != d.app.logger
    requires !TraceRequested(inner.app.options, inner.status) && !TraceRequested(d.app.options, d.status)
    requires !FilterAccepts(d.app.options, d.request.path)
    ensures var r := Serve(w, t, d, files);
            && r.Done?
            && OutputOf(r.world.outputs, inner.app.logger) == OutputOf(w.outputs, inner.app.logger)
            && |OutputOf(r.world.outputs, d.app.logger)| == |OutputOf(w.outputs, d.app.logger)| + 1
            && var e := OutputOf(r.world.outputs, d.app.logger)[|OutputOf(w.outputs, d.app.logger)|];
            && e.level == LevelFor(d.status)
            && e.message == Summary(d.request.verb + " " + d.request.path)
            && e.data.Some? && Db !in e.data.value && DbQueries !in e.data.value
            && Current.SlotOf(r.world.store, t) == Current.Empty
  {
    NestedAppCompletes(w, t, d, inner, files);
    ServeReadsSlotAfter(w, t, d, files);
    CompletedRequestLogsSummaryLast(w, t, d, files);
    NoDatabaseFieldsAfterNestedCall(w, t, d, 0, files);
    assert |Serve(w, t, d, files).inst.logEntries| == 1;
  }

  /** An untraced request whose route block only runs an untraced flat nested app completes. */
  lemma NestedAppCompletes(w: World, t: Current.ThreadId, d: Dispatch, inner: Dispatch, files: Files)
    requires d.events == [Run(inner)] && NoNesting(inner.events, 0)
    requires !TraceRequested(inner.app.options, inner.status) && !TraceRequested(d.app.options, d.status)
    ensures Serve(w, t, d, files).Done?
  {
    var (w1, inst) := BeforeHook(w, d);
    var (wi, innerInst) := BeforeHook(w1, inner);
    FlatRouteBlock(wi, t, inner, innerInst, 0, files);
    var si := Serve(w1, t, inner, files);
    assert si.Done?;
    var ev := RunEvents(w1, t, d, inst, 0, files);
    assert ev == RunEvents(si.world, t, d, inst, 1, files);
    assert Serve(w, t, d, files) == AfterHook(ev.world, t, d.app, ev.inst, d.status, d.request, d.finishedAt, files);
  }

  /**
   * With default options, a 404 whose route block recorded a nil match raises
   * inside `add`: nothing is logged and the counters the block accrued are
   * left on the thread for its next request.
   */
  lemma MissedRouteWithForeignFrameRaises(w: World, t: Current.ThreadId, d: Dispatch, j: nat, files: Files)
    requires d.app.options == Configure(map[]) && d.status == 404
    requires !Marked(w.env) && NoNesting(d.events, 0)
    requires j < |d.events| && d.events[j].Matched?
    requires forall f :: 0 <= f < |d.events[j].frames| ==> !(d.app.root <= d.events[j].frames[f].path)
    ensures var r := Serve(w, t, d, files);
            && r.Raised?
            && SameOutputs(r.world.outputs, w.outputs)
            && r.world.store == Current.ApplyAll(w.store, t, CallsFrom(d.events, 0))
  {
    DefaultTraceOnlyOnMissed(map[], d.status);
    var (w1, inst) := BeforeHook(w, d);
    FlatRouteBlock(w1, t, d, inst, 0, files);
    ForeignFrameRecordsNil(w1, t, d, inst, 0, j, files);
  }

  /**
   * Any completed outermost request whose path the filter rejects, traced or
   * not, with nested apps or not, ends its logger's output with the summary
   * `add` builds from the slot `SlotAfter` predicts.
   */
  lemma CompletedRequestLogsSummaryLast(w: World, t: Current.ThreadId, d: Dispatch, files: Files)
    requires !Marked(w.env) && Serve(w, t, d, files).Done?
    requires !FilterAccepts(d.app.options, d.request.path)
    ensures var r := Serve(w, t, d, files);
            var before := OutputOf(w.outputs, d.app.logger);
            var out := OutputOf(r.world.outputs, d.app.logger);
            && |out| > |before| && out[..|before|] == before
            && out[|out| - 1] == SummaryEntry(BeforeHook(w, d).1.(matches := Selected(d.events, 0, d.app.root)),
                                              w.store[t := SlotAfter(Current.SlotOf(w.store, t), d.events, 0)], t,
                                              d.status, d.request, d.finishedAt, files)
  {
    var r := Serve(w, t, d, files);
    ServeReadsSlotAfter(w, t, d, files);
    var inst := BeforeHook(w, d).1.(matches := Selected(d.events, 0, d.app.root));
    var store := w.store[t := SlotAfter(Current.SlotOf(w.store, t), d.events, 0)];
    var trace := TraceRequested(d.app.options, d.status);
    assert !inst.filter(d.request.path);
    AddSummaryUnlessFiltered(inst, store, t, d.status, d.request, trace, d.finishedAt, files);
    assert r.inst.logEntries == NewEntries(inst, r.inst);
  }

  /**
   * The summary that ends a completed, unfiltered outermost request carries
   * `db` and `db_queries` exactly when the predicted slot has them set, with
   * their values: whatever the block accrued after its last nested app.
   */
  lemma CompletedRequestEndsWithSummary(w: World, t: Current.ThreadId, d: Dispatch, files: Files)
    requires !Marked(w.env) && Serve(w, t, d, files).Done?
    requires !FilterAccepts(d.app.options, d.request.path)
    ensures var out := OutputOf(Serve(w, t, d, files).world.outputs, d.app.logger);
            var slot := SlotAfter(Current.SlotOf(w.store, t), d.events, 0);
            && |out| > 0
            && var e := out[|out| - 1];
            && e.level == LevelFor(d.status)
            && e.message == Summary(d.request.verb + " " + d.request.path)
            && e.data.Some?
            && (Db in e.data.value <==> slot.time.Some?)
            && (Db in e.data.value ==> e.data.value[Db] == Int(slot.time.value))
            && (DbQueries in e.data.value <==> slot.count.Some?)
            && (DbQueries in e.data.value ==> e.data.value[DbQueries] == Int(slot.count.value))
  {
    CompletedRequestLogsSummaryLast(w, t, d, files);
    var store := w.store[t := SlotAfter(Current.SlotOf(w.store, t), d.events, 0)];
    assert Current.SlotOf(store, t) == SlotAfter(Current.SlotOf(w.store, t), d.events, 0);
  }

  /** With no database event in `events[i..]`, the slot stays empty. */
  lemma {:induction false} EmptyWithoutDatabaseEvents(events: seq<Event>, i: nat)
    requires i <= |events|
    requires forall k :: i <= k < |events| ==> !events[k].AccrueTime? && !events[k].CountQueries?
    ensures SlotAfter(Current.Empty, events, i) == Current.Empty
    decreases |events| - i
  {
    if i < |events| {
      EmptyWithoutDatabaseEvents(events, i + 1);
    }
  }

  /**
   * Database work done before a nested app finishes never reaches the outer
   * request's entries: when no database event follows the nested app at `j`,
   * no entry of the completed request carries `db` or `db_queries`, wherever
   * `j` lies in the route block.
   */
  lemma NoDatabaseFieldsAfterNestedCall(w: World, t: Current.ThreadId, d: Dispatch, j: nat, files: Files)
    requires j < |d.events| && d.events[j].Run?
    requires forall k :: j < k < |d.events| ==> !d.events[k].AccrueTime? && !d.events[k].CountQueries?
    requires Serve(w, t, d, files).Done?
    ensures NoDatabaseFields(Serve(w, t, d, files).inst.logEntries)
  {
    var r := Serve(w, t, d, files);
    ServeReadsSlotAfter(w, t, d, files);
    SlotAfterForgetsBeforeNested(Current.SlotOf(w.store, t), d.events, 0, j);
    EmptyWithoutDatabaseEvents(d.events, j + 1);
    var inst := BeforeHook(w, d).1.(matches := Selected(d.events, 0, d.app.root));
    var store := w.store[t := SlotAfter(Current.SlotOf(w.store, t), d.events, 0)];
    var trace := TraceRequested(d.app.options, d.status);
    assert Current.SlotOf(store, t) == Current.Empty;
    AddOmitsUnsetCounters(inst, store, t, d.status, d.request, trace, d.finishedAt, files);
    assert Add(inst, store, t, d.status, d.request, trace, d.finishedAt, files).inst == r.inst;
    assert r.inst.logEntries == NewEntries(inst, r.inst);
  }
}

=== FILE: wrappers.dfy ===
/** A Ruby variable that may hold `nil`. */
module Wrappers {

  datatype Option<T> = None | Some(value: T) {

    /** Ruby's `x || fallback` for a variable that is either nil or a non-false value. */
    function GetOr(fallback: T): (r: T)
      ensures this.Some? ==> r == value
      ensures this.None? ==> r == fallback
    {
      if this.Some? then value else fallback
    }
  }
}
